=== FILE: README.md ===
# Session core of an SQL audit service, in Dafny

This project models the core of the audit session of an SQL review service,
`session/core.go`. A session carries data-source options and exposes four
entry points:

- **Audit** reviews a script.
- **RunExecute** reviews it and then commits it.
- **Print** dumps syntax trees.
- **Split** re-batches the statements.

All four entry points share one pipeline:

- check and normalise the options;
- cut the script into statement chunks with a line-based heuristic that tracks single-quote parity;
- parse each chunk;
- hand each statement node to the handler of the active mode;
- fold the handler's outcome into the active result container;
- when the run ends, fill in a default affected-row count.

Modules, one per part of the source:

- `Common`: the `Option` type and the errors an entry point can return.
- `Text`: the Go `strings` operations the core relies on (Split, Join, TrimRight, Trim, TrimSpace, Replace with count 1), over `seq<char>`.
- `Splitter`: the chunking loop, as a recursive function over classified lines.
- `Options`: `checkOptions`, which covers mode normalisation, SleepRows clamping, mandatory-field validation with its combined message, and the middleware tag rewrite.
- `Records`: the record shapes, `makeNewResult`, and the deferred affected-row default.
- `Pipeline`: the per-chunk and per-node fold, and one whole run.
- `Session`: the session and its entry points `LoadOptions`, `Audit`, `RunExecute`, `Print` and `Split`.

These are not part of this model: the parser, the three mode handlers, the kill check, the contents of the pending split batch, provisioning, `hasErrorBefore` and `executeCommit`. Each is a field of `Pipeline.Env`, so every property holds whatever they do. A flush of the pending split batch is taken to empty it. A Split run that already flushed the batch on a parse failure or a kill therefore gains nothing from the closing flush.

Where the code and the documented intent of the system disagree, the model follows the code, with one exception. Where the source's deferred affected-row default dereferences a nil container, the model uses the nil-checked default instead (see "## Findings" and the `Session.*` lines under "## Left out"). Elsewhere:

- Print and Split always return a nil error, even when a parse fails.
- Normalisation does not make Print and Split exclusive. When both are set, Print wins the routing and no split container is created.
- Every route except Print also appends the statement's record to the record container, so a Split run fills both containers.
- The port is rejected only when it is exactly 0.
- Mode flags set by an entry point persist in the session's options, so an Audit after a Print still runs in Print mode.
- The middleware tag is re-wrapped on every run.
- A Split run's affected-row default is taken when the run returns, before the closing flush of the pending split batch. With no handler-set count it therefore counts the run's split entries but not that closing batch, so it can be smaller than the number of entries Split returns.

## Model

| member | source | states |
|---|---|---|
| Text.SplitLines | session/core.go:238 | splitting on newlines gives at least one piece, no piece holds a newline, and joining the pieces with newlines gives the script back |
| Text.SplitJoinRoundTrip | session/core.go:238 | splitting the newline-join of newline-free lines gives exactly those lines |
| Text.TrimRightChar | session/core.go:328 | the trimmed text is a prefix of the input that does not end in the character, and everything removed was that character |
| Text.Trim | session/core.go:363 | the trimmed text is a prefix of the left-trimmed input (the suffix after the leading run of cut characters), only cut characters follow it there, its ends are outside the cut set, and it is empty exactly when every input character is in the cut set |
| Text.TrimUnique | session/core.go:363 | any non-empty slice whose ends are outside the cut set and outside which every character is in the cut set is the trimmed text, so the trim is fully determined |
| Splitter.ChunksPartition | session/core.go:310-329 | concatenating the chunks gives back the script's lines: no line is dropped, duplicated or reordered, including the last, unterminated one |
| Splitter.ChunksNonEmpty | session/core.go:322-329 | every chunk holds at least one line, and a script always yields at least one chunk |
| Splitter.ChunkBoundaries | session/core.go:310-323 | a chunk ends at line i exactly when i is the last line, or when line i ends in `;` or `;\r` and the lines up to and including i hold an even number of odd-quote lines |
| Splitter.LastLineEndsChunk | session/core.go:322-325 | the last line of the script is the last line of the last chunk, whatever its terminator or quote parity |
| Splitter.OneChunkPerLine | session/core.go:316-329 | balanced-quote lines that all end in a terminator (the last one excepted) give one chunk per line |
| Splitter.QuotedTerminatorJoins | session/core.go:310-329 | a terminated line that opens a quote is not flushed; it joins the next terminated line that closes the quote, which ends the chunk, and the following line starts a new chunk |
| Splitter.CarriageReturnKeepsSemicolon | session/core.go:322-328 | a line ending in `;\r` counts as terminated, but its `;` survives the trim because the trim stops at the carriage return |
| Splitter.SemicolonsTrimmed | session/core.go:328 | every trailing `;` of a chunk is removed, not only one |
| Options.Normalize | session/core.go:443-459 | read-only modes turn Execute and Backup off and IgnoreWarnings on; Sleep <= 0 zeroes SleepRows; otherwise a SleepRows below 1 becomes exactly 1 and any other value is kept; Check survives only without Print and Split; nothing else changes |
| Options.NormalizeIdempotent | session/core.go:443-459 | normalising twice gives the same options as normalising once |
| Options.NormalizedModes | session/core.go:443-459 | after normalisation Execute and Backup exclude every read-only mode, Check excludes Print and Split, and Print and Split are left as requested |
| Options.PrintAndSplitNotExclusive | session/core.go:443-459 | Print and Split requested together both survive normalisation, with Check off |
| Options.MissingMessage | session/core.go:462-474 | the built message, once trailing commas are trimmed, is the missing fragments joined by single commas |
| Options.Validate | session/core.go:462-475 | validation fails exactly when host is empty, port is 0 or user is empty, and the error names exactly the missing fields in host, port, user order |
| Options.OnlyHostMissing | session/core.go:462-474 | an empty host alone yields exactly the host fragment, with no trailing comma |
| Options.AllMissing | session/core.go:462-474 | all three fields missing yields the three fragments separated by commas |
| Options.MiddlewareTag | session/core.go:486-488 | the tag is wrapped in `/*` and `*/`; its first `: ` becomes `=` and later occurrences stay, and a tag without `: ` is only wrapped |
| Options.MiddlewareTagGrows | session/core.go:486-488 | the rewritten tag is at least three characters longer, so rewriting it again always changes it |
| Options.CheckOptions | session/core.go:437-498 | the options are always normalised; validation errors come before provisioning; the tag is rewritten only when non-empty and validation passed; a provisioning failure is reported as such |
| Records.MakeNewResult | session/core.go:42-64 | with no record container the result is empty; otherwise each record keeps its position and all its fields except SeqNo, which becomes its index |
| Records.MakeNewResultIdempotent | session/core.go:42-64 | renumbering an already renumbered result changes nothing |
| Records.MakeNewResultAppend | session/core.go:57-63 | records appended later never change the numbers of earlier ones |
| Records.AffectedRowsAsWritten | session/core.go:243-256 | with no handler-set count, the default dereferences the print or split container exactly when that mode is active and the container was never created |
| Records.AffectedRows | session/core.go:243-256 | a handler-set count is kept; otherwise the count is the size of the active container, with an absent container counting 0 |
| Records.AffectedRowsAgrees | session/core.go:243-256 | wherever the source's default does not dereference nil, the corrected default gives the same count |
| Pipeline.RouteOf | session/core.go:382-387 | Print wins over Split, and every other run goes to the processing handler |
| Pipeline.ParseChunk | session/core.go:330-341 | parser errors and non-empty node lists pass through unchanged; an empty node list is an error exactly when the trimmed text is not blank and does not start with `#`, `--` or `/*` |
| Pipeline.Dispatch | session/core.go:372-422 | a dispatched node is counted once; containers only grow; Print never adds records; the run stops exactly on a handler error, a result set or a kill; a handler error is reported as that error, a result set with no error, and a kill as cancelled, in that order of precedence; only a kill on the Split route flushes the pending batch; a clean SET statement leaves no record |
| Pipeline.StepNode | session/core.go:361-371 | a transaction-start or -commit marker changes nothing and uses no dispatch ordinal; any other node takes one ordinal, only grows the containers, and stops the run exactly when its handler reports an error, a result set or a kill |
| Pipeline.NodeRecord | session/core.go:362-373 | the record's text is the node text with space, `;`, the ASCII controls and U+00A0 trimmed from both ends, so it neither starts nor ends with one and is empty exactly when the text holds nothing else; it carries the node's kind and stage Check |
| Pipeline.RunNodes | session/core.go:361-423 | over a chunk's nodes the containers only grow; Print never touches records; a run that goes on has dispatched every non-marker node; it never ends with the missing-source error |
| Pipeline.StopIgnoresRest | session/core.go:389-409 | once a node stops the run (handler error, result set or kill), the rest of the chunk has no effect |
| Pipeline.HandlerErrorStops | session/core.go:389-391 | a handler error ends the run with that error, after the handler's own effects |
| Pipeline.ResultEndsRun | session/core.go:392-394 | a handler returning a result set ends the run without error |
| Pipeline.Killed | session/core.go:396-408 | the dispatch count, the affected rows and the inactive containers are unchanged; the active container gains the kill entry, the Print and Split entries holding the trimmed buffer with the kill message, Split preceded by the pending batch and marked flushed |
| Pipeline.KillAppendsOneEntry | session/core.go:396-409 | a kill ends the run as cancelled, with the current record marked as an error and appended as one terminal entry to the active container |
| Pipeline.RunChunks | session/core.go:320-430 | over the chunks the containers only grow, Print never touches records, and the run never ends with the missing-source error |
| Pipeline.RunChunksConcat | session/core.go:316-430 | folding two chunk lists in turn is the same as folding their concatenation; a stop in the first list ends the run |
| Pipeline.SplitRunParseFailure | session/core.go:343-359 | a Split run whose first chunk fails to parse holds the flushed pending batch followed by the one failure entry, and records that the batch was flushed |
| Pipeline.FailChunk | session/core.go:343-357 | the dispatch count, the affected rows and the inactive containers are unchanged; the active container gains one level-2 entry with the trimmed chunk text and the message, Split preceded by the pending batch and marked flushed |
| Pipeline.ParseFailureStops | session/core.go:343-360 | a chunk the parser rejects ends the run with a parse failure after exactly one terminal entry, which holds the trimmed chunk text at level 2 with the parser's message (Split mode flushes the pending batch first); later chunks are never parsed |
| Pipeline.EmptyParseChunk | session/core.go:330-360 | a chunk that parses to no statements has no effect when its trimmed text is blank or starts with `#`, `--` or `/*`, and otherwise ends the run as a parse failure with the fixed message |
| Pipeline.AuditRun | session/core.go:284-298 | a failed option check leaves all three containers absent; otherwise records always exist, prints only in Print mode, and splits only in Split mode without Print; a Print run leaves records empty; the pending split batch is marked flushed only when a split container exists and the run ended with an error |
| Pipeline.AffectedDefaultsToEntries | session/core.go:243-256 | with no handler-set count, a run reports the size of its active container, and a failed option check reports 0 |
| Pipeline.PrintWithoutHostAsWritten | session/core.go:243-247 | a Print run whose options lack a host reaches the nil dereference in the source's default |
| Pipeline.SplitWithoutHostAsWritten | session/core.go:247-248 | a Split run whose options lack a host reaches the nil dereference in the source's default |
| Session.LoadOptions | session/core.go:230-234 | the given options become the session's data source, and nothing else changes |
| Session.Audit | session/core.go:146-161 | the missing-source error is returned exactly when no options were loaded, and then the session is unchanged; otherwise the error is the run's error, the rows are the run's records renumbered from 0, and the session keeps the checked options and the run's affected rows; Check holds afterwards exactly when no Print or Split flag lingers; a failed validation returns no records |
| Session.RunExecute | session/core.go:164-186 | the same guard; Execute holds afterwards exactly when no Print or Split flag lingers; the records are committed unless an earlier error is found; the run's error is returned either way; the session keeps the run's checked options and affected rows |
| Session.Print | session/core.go:194-209 | the same guard; otherwise the error is always nil and the rows are the run's print container, or none when it was never created; Print is on and Check, Execute and Backup are off afterwards; a failed validation returns no entries |
| Session.Split | session/core.go:211-228 | the same guard; otherwise the error is always nil; with a lingering Print flag no entries are returned; otherwise the entries are the run's, followed by the pending batch unless the run already flushed it on a parse failure or kill; the session keeps the run's checked options and affected rows |
| Session.LoadedNeverNoSource | session/core.go:148-150 | after LoadOptions no entry point reports a missing data source, and Print and Split report no error at all |
| Session.AuditAfterPrintIsEmpty | session/core.go:410-414 | because the Print flag sticks, an Audit after a Print returns no records at all |
| Session.ExecuteAfterPrintDoesNotExecute | session/core.go:443-445 | because the Print flag sticks, a RunExecute after a Print runs with Execute off |
| Session.RepeatedAuditRewrapsTag | session/core.go:486-488 | two Audits in a row wrap the middleware tag twice, and the second wrap differs from the first |
| Session.AuditAffectedCountsRecords | session/core.go:249-254 | with no mode flag set and no handler-set count, Audit reports as many affected rows as records it returns |
| Session.SplitParseFailureFlushesOnce | session/core.go:211-228 | when the first chunk of a Split run fails to parse, the entries are the pending batch once, then the failure entry; the closing flush adds nothing |
| Session.SplitAffectedExcludesClosingFlush | session/core.go:211-256 | with no handler-set count and no earlier flush, a Split run's affected rows are the run's split entries, and the returned entries exceed them by exactly the closing batch |
| Session.AuditWithoutHost | session/core.go:462-474 | an Audit lacking only a host fails with exactly that fragment and returns no records |

## Left out

- The SQL parser (`ParseSQL`) is the oracle `Env.parse`. The charset and collation passed to it are not modelled.
- The handlers `processCommand`, `printCommand` and `splitCommand` are not part of this model. They are the oracle `Env.handle`, which reports the handler's error, result set, record level, message and buffer, emitted entries, affected rows, and the outcome of the kill check `checkClose` that follows.
- `addNewSplitNode` is not part of this model. The batch it flushes is the oracle `Env.pendingSplit`, and a flush is taken to leave the batch empty. On an absent split container the final flush in `Split` does nothing.
- `hasErrorBefore` and `executeCommit` are the oracles `Env.hasErrorBefore` and `Env.commit`.
- Session.RunExecute: when the option check fails, the model returns no records without consulting `hasErrorBefore` or `executeCommit`. Their behaviour on an absent record container is not part of this model.
- Connection provisioning is the oracle `Env.provision`, which returns an error message or nothing. It covers the TLS config, opening the database, the DDL handle for TranBatch, the binlog check, backup host validation and connection, process info, the server version probe and the sql_safe_updates setup. All of it is network I/O.
- The TiDB backup warning at the end of `checkOptions` is not modelled. It depends on the server type, which comes from I/O.
- `appendErrorMessage` is not part of this model. It is taken to set the level to 2 and add the message as a line of the record's buffer (`Records.AppendErrorMessage`).
- The `Cut` applied to each record by `makeNewResult` is not part of this model.
- The container's running count `rc.count` is taken to be the number of entries.
- Error texts: `InvalidSource` carries the comma-joined detail. The format string `ER_SQL_INVALID_SOURCE` that wraps it lives in a message table that is not part of this model.
- The progress percentage written to the process info is left out: it is floating point, and it only feeds monitoring. It divides the inner node index by the line count.
- Logging (`log.*`, the general log) is left out: it is I/O only.
- Connection-id assignment and timezone setup in `NewInception`, the cache maps reset by `init` and `clear`, and the fingerprint map are left out. They are state the handlers use.
- `QueryTree` is an alias of `Print` and is not modelled separately.
- Pipeline.AuditRun: every run starts with no handler-set affected rows. This rests on `resetContextOfStmt`, which `init` calls (session/core.go:112) and which is not part of this model.
- Session.Print: when the option check fails, the source's deferred default reads the count of a print container that was never created and panics (session/core.go:246). The model returns normally with the nil-checked count, so "a failed validation returns no entries" describes the corrected program.
- Session.Split: the same when the option check fails. The container read is the split container (session/core.go:248), or the print container when a Print flag lingers.
- Session.Audit: when a Print or Split flag lingers from an earlier call and the option check fails, the source panics in the same way. The model returns the check's error with no records.
- Session.RunExecute: the same as Session.Audit for a lingering Print or Split flag and a failed option check.
- Session.RunExecute: the session's affected rows are the run's; any count `executeCommit` adds after the run is not part of this model.
- Session.LoadedNeverNoSource and Session.AuditAfterPrintIsEmpty: both cover the corrected default. In the source, the calls above that panic return nothing at all.
- Session.AuditWithoutHost: describes the corrected default when a Print or Split flag lingers from an earlier call. In the source, that Audit panics at session/core.go:246 or 248 instead of returning the host fragment. Without a lingering flag, the lemma holds of the code as written.
- Strings are sequences of Unicode code points, while Go strings are bytes. Byte sequences that are not valid UTF-8 cannot be represented, and trimming is stated per code point, as Go's `strings.Trim` and `TrimSpace` do on valid UTF-8.
- Records.AffectedRows: counts are unbounded naturals; the uint64 wrap-around of the source is not modelled, since a count is at most the number of statements.

## Findings

| source | as written | input that shows it | evidently intended | confidence | as-written member | corrected member |
|---|---|---|---|---|---|---|
| session/core.go:243-256 | when no handler set a count, the deferred default reads the count of `printSets` (Print mode) or `splitSets` (Split mode) without the nil check the record-container branch has, but those containers are created only after `checkOptions` succeeds | `Print` (or `Split`) on a session whose options have Host `""`: `checkOptions` fails, no print container exists, and the deferred function dereferences a nil pointer | an absent container counts 0, as the record-container branch does | medium, not executed | Pipeline.PrintWithoutHostAsWritten | Records.AffectedRows |

=== FILE: common.dfy ===
/**
 Shared wrapper types: an optional value and the errors a session run can end with.
 */
module Common {

  /** The conventional Some/None datatype; `None` stands in for Go's nil. */
  datatype Option<+T> = None | Some(value: T)

  /** The errors an entry point or the audit pipeline can return as its top-level error. */
  datatype Error =
    | NoSource                      // no data source configured (options were never loaded)
    | InvalidSource(detail: string) // host, port or user missing; detail lists which
    | ProvisionFailed(msg: string)  // connection provisioning failed (DSN, binlog, backup host)
    | ParseFailed(msg: string)      // the parser rejected a chunk or produced nothing for it
    | HandlerFailed(msg: string)    // a mode handler returned an error
    | Cancelled                     // the kill check observed a cancelled context
}

=== FILE: options.dfy ===
/**
 The source options of a run and the pure part of their check: mode-flag
 normalisation, Sleep/SleepRows clamping, the mandatory host/port/user
 validation with its combined message, and the middleware tag rewrite.
 Opening connections is a parameter (`provision`): it is network I/O.
 */
module Options {

  import opened Common
  import opened Text

  datatype SourceOptions = SourceOptions(
    host: string, port: int, user: string, password: string, db: string,
    check: bool, execute: bool, printTree: bool, split: bool, backup: bool,
    ignoreWarnings: bool, fingerprint: bool,
    sleep: int, sleepRows: int, tranBatch: int,
    middlewareExtend: string, middlewareDB: string)

  /** Split, Check or Print was requested: the run must not mutate data. */
  predicate ReadOnly(o: SourceOptions) {
    o.split || o.check || o.printTree
  }

  /** The three normalisation rules, applied in source order. */
  function Normalize(o: SourceOptions): (r: SourceOptions)
    ensures ReadOnly(o) ==> !r.execute && !r.backup && r.ignoreWarnings
    ensures !ReadOnly(o) ==>
      r.execute == o.execute && r.backup == o.backup && r.ignoreWarnings == o.ignoreWarnings
    ensures o.sleep <= 0 ==> r.sleepRows == 0
    ensures o.sleep > 0 ==> r.sleepRows >= 1 && (o.sleepRows >= 1 ==> r.sleepRows == o.sleepRows)
    ensures o.sleep > 0 && o.sleepRows < 1 ==> r.sleepRows == 1
    ensures r.check <==> o.check && !o.split && !o.printTree
    ensures r.(check := o.check, execute := o.execute, backup := o.backup,
               ignoreWarnings := o.ignoreWarnings, sleepRows := o.sleepRows) == o
  {
    var o1 := if ReadOnly(o) then o.(execute := false, backup := false, ignoreWarnings := true) else o;
    var o2 := if o1.sleep <= 0 then o1.(sleepRows := 0)
              else if o1.sleepRows < 1 then o1.(sleepRows := 1)
              else o1;
    if o2.split || o2.printTree then o2.(check := false) else o2
  }

  /** Normalising twice changes nothing more than normalising once. */
  lemma NormalizeIdempotent(o: SourceOptions)
    ensures Normalize(Normalize(o)) == Normalize(o)
  {
  }

  /**
   After normalisation Execute excludes every read-only mode and Check
   excludes Print and Split; Print and Split themselves are left as requested.
   */
  lemma NormalizedModes(o: SourceOptions)
    ensures var r := Normalize(o);
      && (r.execute ==> !r.check && !r.printTree && !r.split)
      && (r.backup ==> !r.check && !r.printTree && !r.split)
      && (r.check ==> !r.printTree && !r.split)
      && r.printTree == o.printTree && r.split == o.split
  {
  }

  /** Print and Split requested together both survive normalisation. */
  lemma PrintAndSplitNotExclusive(o: SourceOptions)
    requires o.printTree && o.split
    ensures Normalize(o).printTree && Normalize(o).split && !Normalize(o).check
  {
  }

  // ---------------------------------------------------------------------------
  // Mandatory fields.

  const HostEmpty := "主机名为空"
  const PortZero := "端口为0"
  const UserEmpty := "用户名为空"

  /** The missing mandatory fields, in host, port, user order. */
  function MissingFields(o: SourceOptions): seq<string> {
    (if o.host == "" then [HostEmpty] else [])
    + (if o.port == 0 then [PortZero] else [])
    + (if o.user == "" then [UserEmpty] else [])
  }

  /** Each present fragment followed by a comma, as the message is built up. */
  function WithCommas(fields: seq<string>): string {
    if |fields| == 0 then "" else fields[0] + "," + WithCommas(fields[1..])
  }

  /** The detail of the invalid-source error: fragments concatenated, trailing commas trimmed. */
  function MissingMessage(o: SourceOptions): (msg: string)
    ensures msg == Join(MissingFields(o), ",")
  {
    var fields := MissingFields(o);
    WithCommasJoin(fields);
    TrimOneComma(Join(fields, ","));
    TrimRightChar(WithCommas(fields), ',')
  }

  lemma {:induction false} WithCommasJoin(fields: seq<string>)
    requires forall i :: 0 <= i < |fields| ==> fields[i] in {HostEmpty, PortZero, UserEmpty}
    ensures |fields| > 0 ==> WithCommas(fields) == Join(fields, ",") + ","
    ensures |fields| > 0 ==> |Join(fields, ",")| > 0 && Join(fields, ",")[|Join(fields, ",")| - 1] != ','
    ensures |fields| == 0 ==> WithCommas(fields) == ""
    decreases |fields|
  {
    if |fields| > 1 {
      WithCommasJoin(fields[1..]);
      var j := Join(fields[1..], ",");
      assert Join(fields, ",") == fields[0] + "," + j;
      assert Join(fields, ",")[|Join(fields, ",")| - 1] == j[|j| - 1];
    } else if |fields| == 1 {
      assert fields[1..] == [];
      assert fields[0][|fields[0]| - 1] != ',';
    }
  }

  lemma TrimOneComma(s: string)
    requires |s| == 0 || s[|s| - 1] != ','
    ensures s != "" ==> TrimRightChar(s + ",", ',') == s
    ensures s == "" ==> TrimRightChar(s, ',') == s
  {
  }

  /**
   Host, port and user are mandatory. The error, when there is one, names
   exactly the missing fields, in host, port, user order, separated by commas.
   */
  function Validate(o: SourceOptions): (r: Option<Error>)
    ensures r.None? <==> o.host != "" && o.port != 0 && o.user != ""
    ensures r.Some? ==> r.value == InvalidSource(Join(MissingFields(o), ","))
  {
    if o.host == "" || o.port == 0 || o.user == "" then Some(InvalidSource(MissingMessage(o)))
    else None
  }

  /** An empty host alone gives exactly the host fragment, with no trailing comma. */
  lemma OnlyHostMissing(o: SourceOptions)
    requires o.host == "" && o.port != 0 && o.user != ""
    ensures Validate(o) == Some(InvalidSource(HostEmpty))
  {
  }

  /** All three missing gives the three fragments joined by commas. */
  lemma AllMissing(o: SourceOptions)
    requires o.host == "" && o.port == 0 && o.user == ""
    ensures Validate(o) == Some(InvalidSource(HostEmpty + "," + PortZero + "," + UserEmpty))
  {
    var fields := [HostEmpty, PortZero, UserEmpty];
    assert MissingFields(o) == fields;
    assert fields[1..][1..] == [UserEmpty];
    assert Join(fields[1..], ",") == PortZero + "," + UserEmpty;
    assert Join(fields, ",") == HostEmpty + "," + (PortZero + "," + UserEmpty);
    assert HostEmpty + "," + (PortZero + "," + UserEmpty) == HostEmpty + "," + PortZero + "," + UserEmpty;
    assert Validate(o) == Some(InvalidSource(Join(fields, ",")));
  }

  // ---------------------------------------------------------------------------
  // Middleware tag.

  /** The tag is wrapped as an inline comment and its first ": " becomes "=". */
  function MiddlewareTag(ext: string): (r: string)
    ensures HasPrefix(r, "/*") && HasSuffix(r, "*/")
    ensures (forall j :: 0 <= j <= |ext| ==> !OccursAt(ext, ": ", j)) ==> r == "/*" + ext + "*/"
    ensures forall i: nat :: OccursAt(ext, ": ", i) && (forall j :: 0 <= j < i ==> !OccursAt(ext, ": ", j)) ==>
      r == "/*" + ext[..i] + "=" + ext[i + 2..] + "*/"
  {
    var body := ReplaceFirst(ext, ": ", "=");
    var r := "/*" + body + "*/";
    assert HasPrefix(r, "/*") && HasSuffix(r, "*/") by {
      assert r[..2] == "/*";
      assert r[|r| - 2..] == "*/";
    }
    r
  }

  /** The rewritten tag is always longer than the original, so rewriting it again changes it again. */
  lemma MiddlewareTagGrows(ext: string)
    ensures |MiddlewareTag(ext)| >= |ext| + 3
    ensures MiddlewareTag(MiddlewareTag(ext)) != MiddlewareTag(ext)
  {
  }

  // ---------------------------------------------------------------------------
  // The whole check.

  datatype Checked = Checked(opt: SourceOptions, err: Option<Error>)

  /**
   checkOptions: normalise, validate the mandatory fields, rewrite the
   middleware tag, then provision connections. The options it leaves behind
   are kept by the session, whatever the outcome.
   */
  function CheckOptions(o: SourceOptions, provision: SourceOptions -> Option<string>): (r: Checked)
    ensures Validate(o).Some? ==> r == Checked(Normalize(o), Validate(o))
    ensures Validate(o).None? && o.middlewareExtend == "" ==> r.opt == Normalize(o)
    ensures Validate(o).None? && o.middlewareExtend != "" ==>
      r.opt == Normalize(o).(middlewareExtend := MiddlewareTag(o.middlewareExtend))
    ensures Validate(o).None? ==>
      (r.err.None? <==> provision(r.opt).None?) &&
      (r.err.Some? ==> r.err == Some(ProvisionFailed(provision(r.opt).value)))
  {
    var n := Normalize(o);
    match Validate(n)
    case Some(e) => Checked(n, Some(e))
    case None =>
      var p := if n.middlewareExtend == "" then n
               else n.(middlewareExtend := MiddlewareTag(n.middlewareExtend));
      match provision(p)
      case None => Checked(p, None)
      case Some(msg) => Checked(p, Some(ProvisionFailed(msg)))
  }
}

=== FILE: pipeline.dfy ===
/**
 One run of the audit pipeline: the options are checked, the script is cut
 into chunks, each chunk is parsed, and each statement node is handed to the
 handler of the active mode and folded into the active container.

 The parser, the three mode handlers, the kill check and the pending split
 batch are not part of this model; they are fields of `Env`, so every
 property below holds whatever they do.
 */
module Pipeline {

  import opened Common
  import opened Text
  import opened Splitter
  import opened Records
  import opened Options

  /** A statement node as the parser returns it: its variant and its source text. */
  datatype Node = Node(kind: StmtKind, text: string)

  datatype ParseResult = ParseError(msg: string) | Parsed(nodes: seq<Node>)

  /** Which handler a node goes to: Print wins over Split, everything else is processed. */
  datatype Route = ToPrint | ToSplit | ToProcess

  function RouteOf(o: SourceOptions): (r: Route)
    ensures r == ToPrint <==> o.printTree
    ensures r == ToSplit <==> !o.printTree && o.split
  {
    if o.printTree then ToPrint else if o.split then ToSplit else ToProcess
  }

  /**
   What a mode handler did with one statement: its error, whether it returned
   a result set (which ends the run), the error level, message and buffer it
   left on the current record, the print or split entries it emitted, the
   affected rows it added, and whether the kill check then saw a cancelled
   context.
   */
  datatype Handled = Handled(
    err: Option<string>,
    hasResult: bool,
    level: nat,
    message: string,
    buf: string,
    printed: seq<PrintRecord>,
    split: seq<SplitRecord>,
    addedRows: nat,
    killed: bool)

  /**
   Everything outside the core. `handle` receives the route, the number of
   statements already dispatched in this run, the node's variant and the
   trimmed SQL, so a handler's dependence on history can be expressed.
   `pendingSplit(k)` is the batch addNewSplitNode flushes after k dispatched
   statements; a flush empties it, so it is flushed at most once per run.
   */
  datatype Env = Env(
    parse: string -> ParseResult,
    handle: (Route, nat, StmtKind, string) -> Handled,
    pendingSplit: nat -> seq<SplitRecord>,
    provision: SourceOptions -> Option<string>,
    hasErrorBefore: seq<Record> -> bool,
    commit: seq<Record> -> seq<Record>)

  /**
   The state the fold carries: the three containers, the dispatch count, the
   affected rows, and whether the pending split batch has been flushed.
   */
  datatype Acc = Acc(
    records: seq<Record>,
    prints: seq<PrintRecord>,
    splits: seq<SplitRecord>,
    dispatched: nat,
    affected: nat,
    flushed: bool)

  datatype Outcome = Continue(acc: Acc) | Stop(acc: Acc, err: Option<Error>)

  const EmptyAcc := Acc([], [], [], 0, 0, false)

  /** Every container of `b` starts with the one of `a`, and the counters never go down. */
  predicate Extends(a: Acc, b: Acc) {
    a.records <= b.records && a.prints <= b.prints && a.splits <= b.splits
    && a.dispatched <= b.dispatched && a.affected <= b.affected
  }

  lemma ExtendsTrans(a: Acc, b: Acc, c: Acc)
    requires Extends(a, b) && Extends(b, c)
    ensures Extends(a, c)
  {
  }

  // ---------------------------------------------------------------------------
  // Chunk parsing.

  const EmptyParseMessage := "解析失败! 可能是解析器bug,请联系作者."

  /** A chunk the parser may turn into no statements at all: blank, or a comment. */
  predicate Exempt(t: string) {
    t == "" || HasPrefix(t, "#") || HasPrefix(t, "--") || HasPrefix(t, "/*")
  }

  /**
   The parser's verdict on a chunk's text, with the source's extra rule: an
   empty node list is an error unless the trimmed text is blank or a comment.
   */
  function ParseChunk(env: Env, s1: string): (r: ParseResult)
    ensures env.parse(s1).ParseError? ==> r == env.parse(s1)
    ensures env.parse(s1).Parsed? && |env.parse(s1).nodes| > 0 ==> r == env.parse(s1)
    ensures env.parse(s1) == Parsed([]) ==>
      (r.ParseError? <==> !Exempt(TrimSpace(s1)))
      && (r.ParseError? ==> r.msg == EmptyParseMessage)
      && (r.Parsed? ==> r.nodes == [])
  {
    match env.parse(s1)
    case ParseError(m) => ParseError(m)
    case Parsed(nodes) =>
      if |nodes| == 0 && !Exempt(TrimSpace(s1)) then ParseError(EmptyParseMessage)
      else Parsed(nodes)
  }

  /**
   The single terminal entry a parse failure leaves in the active container:
   the trimmed chunk text with level 2 and the parser's message.
   */
  function FailChunk(route: Route, env: Env, acc: Acc, s1: string, msg: string): (r: Acc)
    ensures Extends(acc, r) && r.dispatched == acc.dispatched && r.affected == acc.affected
    ensures route != ToPrint ==> r.prints == acc.prints
    ensures route != ToSplit ==> r.splits == acc.splits && r.flushed == acc.flushed
    ensures route != ToProcess ==> r.records == acc.records
    ensures route == ToPrint ==> r.prints[|acc.prints|..] == [PrintRecord(2, TrimSpace(s1), "", msg)]
    ensures route == ToSplit ==>
      r.flushed && r.splits[|acc.splits|..] == env.pendingSplit(acc.dispatched) + [SplitRecord(TrimSpace(s1), msg)]
    ensures route == ToProcess ==>
      r.records[|acc.records|..] == [Record(TrimSpace(s1), 2, msg, "", 0, None, StageUnset)]
  {
    var t := TrimSpace(s1);
    match route
    case ToPrint => acc.(prints := acc.prints + [PrintRecord(2, t, "", msg)])
    case ToSplit => acc.(splits := acc.splits + env.pendingSplit(acc.dispatched) + [SplitRecord(t, msg)], flushed := true)
    case ToProcess => acc.(records := acc.records + [Record(t, 2, msg, "", 0, None, StageUnset)])
  }

  // ---------------------------------------------------------------------------
  // One statement node.

  /** Transaction markers are skipped: they reach no handler and produce nothing. */
  predicate IsMarker(k: StmtKind) {
    k == InceptionStart || k == InceptionCommit
  }

  /** The characters trimmed from both ends of a node's text: space, `;`, the ASCII controls and U+00A0. */
  const NodeCut: set<char> := {' ', ';', '\t', '\n', '\U{000B}', '\U{000C}', '\r', '\U{00A0}'}

  /** The record a dispatched node produces once its handler has run. */
  function NodeRecord(node: Node, h: Handled): (r: Record)
    ensures r.sql == Trim(node.text, NodeCut) && r.kind == Some(node.kind) && r.stage == StageCheck
    ensures |r.sql| == 0 || (r.sql[0] !in NodeCut && r.sql[|r.sql| - 1] !in NodeCut)
    ensures r.sql == "" <==> forall i :: 0 <= i < |node.text| ==> node.text[i] in NodeCut
    ensures r.errLevel == h.level && r.errorMessage == h.message && r.buf == h.buf && r.seqNo == 0
  {
    Record(Trim(node.text, NodeCut), h.level, h.message, h.buf, 0, Some(node.kind), StageCheck)
  }

  /** The handler's outcome for `node` when it is dispatched as the next statement after `acc`. */
  function HandlerFor(route: Route, env: Env, acc: Acc, node: Node): Handled {
    env.handle(route, acc.dispatched, node.kind, Trim(node.text, NodeCut))
  }

  /** The containers after a handler ran: its emitted entries go to the active container. */
  function Absorb(route: Route, acc: Acc, h: Handled): (r: Acc)
    ensures Extends(acc, r) && r.records == acc.records && r.flushed == acc.flushed
    ensures r.dispatched == acc.dispatched + 1 && r.affected == acc.affected + h.addedRows
    ensures route != ToPrint ==> r.prints == acc.prints
    ensures route != ToSplit ==> r.splits == acc.splits
    ensures route == ToPrint ==> r.prints[|acc.prints|..] == h.printed
    ensures route == ToSplit ==> r.splits[|acc.splits|..] == h.split
  {
    Acc(acc.records,
        if route == ToPrint then acc.prints + h.printed else acc.prints,
        if route == ToSplit then acc.splits + h.split else acc.splits,
        acc.dispatched + 1,
        acc.affected + h.addedRows,
        acc.flushed)
  }

  /** The terminal entry a kill leaves: the record marked as an error with the kill message in its buffer. */
  function Killed(route: Route, env: Env, a: Acc, rec: Record): (r: Acc)
    ensures Extends(a, r) && r.dispatched == a.dispatched && r.affected == a.affected
    ensures route != ToPrint ==> r.prints == a.prints
    ensures route != ToSplit ==> r.splits == a.splits && r.flushed == a.flushed
    ensures route != ToProcess ==> r.records == a.records
    ensures route == ToPrint ==>
      r.prints[|a.prints|..] == [PrintRecord(2, "", "", TrimSpace(AppendErrorMessage(rec, KilledMessage).buf))]
    ensures route == ToSplit ==>
      && r.flushed
      && r.splits[|a.splits|..]
         == env.pendingSplit(a.dispatched) + [SplitRecord("", TrimSpace(AppendErrorMessage(rec, KilledMessage).buf))]
    ensures route == ToProcess ==> r.records[|a.records|..] == [AppendErrorMessage(rec, KilledMessage)]
  {
    var k := AppendErrorMessage(rec, KilledMessage);
    match route
    case ToPrint =>
      var e := [PrintRecord(2, "", "", TrimSpace(k.buf))];
      assert (a.prints + e)[|a.prints|..] == e;
      a.(prints := a.prints + e)
    case ToSplit =>
      var e := env.pendingSplit(a.dispatched) + [SplitRecord("", TrimSpace(k.buf))];
      assert (a.splits + e)[|a.splits|..] == e;
      a.(splits := a.splits + e, flushed := true)
    case ToProcess =>
      assert (a.records + [k])[|a.records|..] == [k];
      a.(records := a.records + [k])
  }

  /** Whether a dispatched, uneventful statement's record is kept: not in Print mode, and not a clean SET. */
  predicate Kept(route: Route, kind: StmtKind, level: nat) {
    route != ToPrint && !(kind == InceptionSet && level == 0)
  }

  /**
   A dispatched node of variant `kind` once its handler reported `h` and its
   record `rec` was built: a handler error stops the run with that error, a
   result set stops it with none, a kill stops it with Cancelled after one
   terminal entry, and otherwise the record is kept unless the route is Print
   or the node is a SET that raised nothing.
   */
  function Dispatch(route: Route, env: Env, acc: Acc, kind: StmtKind, rec: Record, h: Handled): (r: Outcome)
    ensures r.acc.dispatched == acc.dispatched + 1
    ensures Extends(acc, r.acc)
    ensures |r.acc.records| <= |acc.records| + 1
    ensures route == ToPrint ==> r.acc.records == acc.records
    ensures route != ToPrint ==> r.acc.prints == acc.prints
    ensures route != ToSplit ==> r.acc.splits == acc.splits
    ensures r.Stop? <==> h.err.Some? || h.hasResult || h.killed
    ensures r.Stop? ==> r.err != Some(NoSource)
    ensures r.Stop? && r.err == Some(Cancelled) ==> h.killed
    ensures h.err.Some? ==> r.err == Some(HandlerFailed(h.err.value))
    ensures h.err.None? && h.hasResult ==> r.err.None?
    ensures h.err.None? && !h.hasResult && h.killed ==> r.err == Some(Cancelled)
    ensures r.acc.flushed != acc.flushed ==> route == ToSplit && r.Stop? && r.err == Some(Cancelled)
    ensures r.Continue? ==>
      r.acc.records == acc.records + (if Kept(route, kind, h.level) then [rec] else [])
  {
    var a := Absorb(route, acc, h);
    if h.err.Some? then Stop(a, Some(HandlerFailed(h.err.value)))
    else if h.hasResult then Stop(a, None)
    else if h.killed then
      var k := Killed(route, env, a, rec);
      ExtendsTrans(acc, a, k);
      Stop(k, Some(Cancelled))
    else if Kept(route, kind, h.level) then Continue(a.(records := a.records + [rec]))
    else Continue(a)
  }

  /** One node of the inner loop: a marker changes nothing, any other node is dispatched to its handler. */
  function StepNode(route: Route, env: Env, acc: Acc, node: Node): (r: Outcome)
    ensures IsMarker(node.kind) ==> r == Continue(acc)
    ensures !IsMarker(node.kind) ==> r.acc.dispatched == acc.dispatched + 1 && Extends(acc, r.acc)
    ensures r.Stop? <==>
      !IsMarker(node.kind) && var h := HandlerFor(route, env, acc, node); h.err.Some? || h.hasResult || h.killed
  {
    if IsMarker(node.kind) then Continue(acc)
    else
      var h := HandlerFor(route, env, acc, node);
      Dispatch(route, env, acc, node.kind, NodeRecord(node, h), h)
  }

  /** The number of nodes that reach a handler: all but the transaction markers. */
  function Dispatchable(nodes: seq<Node>): nat {
    if |nodes| == 0 then 0
    else (if IsMarker(nodes[0].kind) then 0 else 1) + Dispatchable(nodes[1..])
  }

  /** The inner loop over a chunk's nodes. */
  function RunNodes(route: Route, env: Env, acc: Acc, nodes: seq<Node>): (r: Outcome)
    ensures Extends(acc, r.acc)
    ensures route == ToPrint ==> r.acc.records == acc.records
    ensures route != ToPrint ==> r.acc.prints == acc.prints
    ensures route != ToSplit ==> r.acc.splits == acc.splits
    ensures r.Continue? ==> r.acc.dispatched == acc.dispatched + Dispatchable(nodes)
    ensures |r.acc.records| <= |acc.records| + Dispatchable(nodes)
    ensures r.Stop? ==> r.err != Some(NoSource)
    ensures r.acc.flushed != acc.flushed ==> route == ToSplit && r.Stop? && r.err.Some?
    decreases |nodes|
  {
    if |nodes| == 0 then Continue(acc)
    else
      match StepNode(route, env, acc, nodes[0])
      case Stop(a, e) => Stop(a, e)
      case Continue(a) =>
        var r := RunNodes(route, env, a, nodes[1..]);
        ExtendsTrans(acc, a, r.acc);
        r
  }

  /** A node that stops the run makes every later node of the chunk irrelevant. */
  lemma StopIgnoresRest(route: Route, env: Env, acc: Acc, n: Node, rest: seq<Node>)
    ensures StepNode(route, env, acc, n).Stop? ==> RunNodes(route, env, acc, [n] + rest) == StepNode(route, env, acc, n)
  {
    assert ([n] + rest)[0] == n;
  }

  /** A handler error ends the run with HandlerFailed carrying the handler's message. */
  lemma HandlerErrorStops(route: Route, env: Env, acc: Acc, n: Node, rest: seq<Node>)
    requires !IsMarker(n.kind) && HandlerFor(route, env, acc, n).err.Some?
    ensures var r := RunNodes(route, env, acc, [n] + rest);
      r.Stop? && r.err == Some(HandlerFailed(HandlerFor(route, env, acc, n).err.value))
      && r.acc == Absorb(route, acc, HandlerFor(route, env, acc, n))
  {
  }

  /** A handler that returns a result set ends the run with no error. */
  lemma ResultEndsRun(route: Route, env: Env, acc: Acc, n: Node, rest: seq<Node>)
    requires !IsMarker(n.kind) && HandlerFor(route, env, acc, n).err.None? && HandlerFor(route, env, acc, n).hasResult
    ensures var r := RunNodes(route, env, acc, [n] + rest);
      r.Stop? && r.err.None? && r.acc == Absorb(route, acc, HandlerFor(route, env, acc, n))
  {
  }

  /**
   A kill ends the run with Cancelled after exactly one terminal entry in the
   active container; nothing of the rest of the chunk is looked at.
   */
  lemma KillAppendsOneEntry(route: Route, env: Env, acc: Acc, n: Node, rest: seq<Node>)
    requires !IsMarker(n.kind)
    requires var h := HandlerFor(route, env, acc, n); h.err.None? && !h.hasResult && h.killed
    ensures var h := HandlerFor(route, env, acc, n);
      RunNodes(route, env, acc, [n] + rest)
        == Stop(Killed(route, env, Absorb(route, acc, h), NodeRecord(n, h)), Some(Cancelled))
  {
    var h := HandlerFor(route, env, acc, n);
    assert ([n] + rest)[0] == n;
    assert StepNode(route, env, acc, n) == Dispatch(route, env, acc, n.kind, NodeRecord(n, h), h);
  }

  // ---------------------------------------------------------------------------
  // The chunk loop.

  /** The outer loop over chunks: parse, record a parse failure and stop, or run the nodes. */
  function RunChunks(route: Route, env: Env, acc: Acc, chunks: seq<seq<string>>): (r: Outcome)
    ensures Extends(acc, r.acc)
    ensures route == ToPrint ==> r.acc.records == acc.records
    ensures route != ToPrint ==> r.acc.prints == acc.prints
    ensures r.Stop? ==> r.err != Some(NoSource)
    ensures r.acc.flushed != acc.flushed ==> route == ToSplit && r.Stop? && r.err.Some?
    decreases |chunks|
  {
    if |chunks| == 0 then Continue(acc)
    else
      var s1 := ChunkText(chunks[0]);
      match ParseChunk(env, s1)
      case ParseError(m) => Stop(FailChunk(route, env, acc, s1, m), Some(ParseFailed(m)))
      case Parsed(nodes) =>
        match RunNodes(route, env, acc, nodes)
        case Stop(a, e) => Stop(a, e)
        case Continue(a) =>
          var r := RunChunks(route, env, a, chunks[1..]);
          ExtendsTrans(acc, a, r.acc);
          r
  }

  /** Running two chunk lists one after the other is running their concatenation. */
  lemma {:induction false} RunChunksConcat(route: Route, env: Env, acc: Acc, c1: seq<seq<string>>, c2: seq<seq<string>>)
    ensures RunChunks(route, env, acc, c1 + c2) ==
      match RunChunks(route, env, acc, c1)
      case Continue(a) => RunChunks(route, env, a, c2)
      case Stop(a, e) => Stop(a, e)
    decreases |c1|
  {
    if |c1| == 0 {
      assert c1 + c2 == c2;
    } else {
      assert (c1 + c2)[0] == c1[0];
      assert (c1 + c2)[1..] == c1[1..] + c2;
      var s1 := ChunkText(c1[0]);
      match ParseChunk(env, s1)
      case ParseError(m) =>
      case Parsed(nodes) =>
        match RunNodes(route, env, acc, nodes)
        case Stop(a, e) =>
        case Continue(a) =>
          RunChunksConcat(route, env, a, c1[1..], c2);
    }
  }

  /**
   A chunk the parser rejects ends the run: exactly one terminal entry is
   added, the error is ParseFailed with the parser's message, and the later
   chunks are never parsed.
   */
  lemma ParseFailureStops(route: Route, env: Env, acc: Acc, c: seq<string>, rest: seq<seq<string>>)
    requires ParseChunk(env, ChunkText(c)).ParseError?
    ensures var m := ParseChunk(env, ChunkText(c)).msg;
      RunChunks(route, env, acc, [c] + rest) == Stop(FailChunk(route, env, acc, ChunkText(c), m), Some(ParseFailed(m)))
  {
    assert ([c] + rest)[0] == c;
  }

  /**
   A chunk the parser turns into no statements is skipped without effect
   when its text is blank or a comment, and otherwise ends the run as a
   parse failure with the fixed message.
   */
  lemma EmptyParseChunk(route: Route, env: Env, acc: Acc, c: seq<string>, rest: seq<seq<string>>)
    ensures env.parse(ChunkText(c)) == Parsed([]) ==>
      var s1 := ChunkText(c);
      && (Exempt(TrimSpace(s1)) ==> RunChunks(route, env, acc, [c] + rest) == RunChunks(route, env, acc, rest))
      && (!Exempt(TrimSpace(s1)) ==>
            RunChunks(route, env, acc, [c] + rest)
              == Stop(FailChunk(route, env, acc, s1, EmptyParseMessage), Some(ParseFailed(EmptyParseMessage))))
  {
    assert ([c] + rest)[0] == c;
    assert ([c] + rest)[1..] == rest;
  }

  // ---------------------------------------------------------------------------
  // A whole run.

  /**
   What a run leaves behind: the options as checked, the containers, the
   handler-set rows, the dispatch count, whether the pending split batch was
   already flushed, and the result.
   */
  datatype RunResult = RunResult(
    opt: SourceOptions,
    sets: Sets,
    handlerRows: nat,
    dispatched: nat,
    flushed: bool,
    err: Option<Error>)

  /**
   The audit body: check the options; if that fails no container exists.
   Otherwise the record container always exists, the print container only
   in Print mode and the split container only in Split mode without Print,
   and the script's chunks are folded into them.
   */
  function AuditRun(opt: SourceOptions, script: string, env: Env): (r: RunResult)
    ensures r.opt == CheckOptions(opt, env.provision).opt
    ensures CheckOptions(opt, env.provision).err.Some? ==>
      r.sets == Sets(None, None, None) && r.err == CheckOptions(opt, env.provision).err
      && r.handlerRows == 0 && r.dispatched == 0 && !r.flushed
    ensures CheckOptions(opt, env.provision).err.None? ==>
      r.sets.records.Some? && (r.sets.prints.Some? <==> r.opt.printTree)
      && (r.sets.splits.Some? <==> !r.opt.printTree && r.opt.split)
    ensures r.opt.printTree && r.sets.records.Some? ==> r.sets.records == Some([])
    ensures r.err != Some(NoSource)
    ensures r.flushed ==> r.sets.splits.Some? && r.err.Some?
  {
    var c := CheckOptions(opt, env.provision);
    if c.err.Some? then RunResult(c.opt, Sets(None, None, None), 0, 0, false, c.err)
    else
      var route := RouteOf(c.opt);
      var out := RunChunks(route, env, EmptyAcc, Chunks(SplitLines(script)));
      var a := out.acc;
      var sets := Sets(Some(a.records),
                       if route == ToPrint then Some(a.prints) else None,
                       if route == ToSplit then Some(a.splits) else None);
      RunResult(c.opt, sets, a.affected, a.dispatched, a.flushed, if out.Stop? then out.err else None)
  }

  /**
   A Split run whose first chunk fails to parse holds the flushed pending
   batch followed by the failure entry, and records that the batch is flushed.
   */
  lemma SplitRunParseFailure(opt: SourceOptions, script: string, env: Env)
    requires var c := CheckOptions(opt, env.provision); c.err.None? && !c.opt.printTree && c.opt.split
    requires var cs := Chunks(SplitLines(script)); |cs| > 0 && ParseChunk(env, ChunkText(cs[0])).ParseError?
    ensures var c := ChunkText(Chunks(SplitLines(script))[0]);
      var r := AuditRun(opt, script, env);
      r.flushed && r.sets.splits == Some(env.pendingSplit(0) + [SplitRecord(TrimSpace(c), ParseChunk(env, c).msg)])
  {
    var cs := Chunks(SplitLines(script));
    assert cs == [cs[0]] + cs[1..];
    ParseFailureStops(ToSplit, env, EmptyAcc, cs[0], cs[1..]);
    assert [] + env.pendingSplit(0) == env.pendingSplit(0);
  }

  /** The affected rows a run reports once its deferred default has been applied. */
  function RunAffected(r: RunResult): nat {
    AffectedRows(r.handlerRows, r.opt.printTree, r.opt.split, r.sets)
  }

  /**
   When no handler set an affected-row count, the run reports the number of
   entries in the active container; a failed option check reports 0.
   */
  lemma AffectedDefaultsToEntries(opt: SourceOptions, script: string, env: Env)
    ensures var r := AuditRun(opt, script, env);
      && (r.handlerRows != 0 ==> RunAffected(r) == r.handlerRows)
      && (r.handlerRows == 0 && r.sets.prints.Some? ==> RunAffected(r) == |r.sets.prints.value|)
      && (r.handlerRows == 0 && r.sets.splits.Some? ==> RunAffected(r) == |r.sets.splits.value|)
      && (r.handlerRows == 0 && r.sets.prints.None? && r.sets.splits.None? && r.sets.records.Some? ==>
            RunAffected(r) == |r.sets.records.value|)
      && (CheckOptions(opt, env.provision).err.Some? ==> RunAffected(r) == 0)
  {
  }

  /**
   The source's deferred default on a Print run whose options lack a host:
   the print container was never created and is read anyway.
   */
  lemma PrintWithoutHostAsWritten(opt: SourceOptions, script: string, env: Env)
    requires opt.printTree && opt.host == ""
    ensures var r := AuditRun(opt, script, env);
      AffectedRowsAsWritten(r.handlerRows, r.opt.printTree, r.opt.split, r.sets).None?
  {
  }

  /** The same on a Split run. */
  lemma SplitWithoutHostAsWritten(opt: SourceOptions, script: string, env: Env)
    requires opt.split && !opt.printTree && opt.host == ""
    ensures var r := AuditRun(opt, script, env);
      AffectedRowsAsWritten(r.handlerRows, r.opt.printTree, r.opt.split, r.sets).None?
  {
  }
}

=== FILE: records.dfy ===
/**
 The three output shapes of a run (audit records, print records, split
 records), the containers that hold them, the final resequencing of audit
 records, and the affected-row default computed when a run ends.
 */
module Records {

  import opened Common

  /** The statement-node variants the core tells apart; every other node is `OtherStmt`. */
  datatype StmtKind = InceptionStart | InceptionCommit | InceptionSet | OtherStmt

  /** The stage a record was produced in; a record built from a parse error keeps the zero value. */
  datatype Stage = StageUnset | StageCheck

  datatype Record = Record(
    sql: string,
    errLevel: nat,           // 0 ok, 1 warning, 2 error
    errorMessage: string,
    buf: string,             // free-form diagnostics written by the handlers
    seqNo: int,
    kind: Option<StmtKind>,  // the originating node, None for a parse-error record
    stage: Stage)

  datatype PrintRecord = PrintRecord(errLevel: nat, sql: string, queryTree: string, errorMessage: string)

  datatype SplitRecord = SplitRecord(sql: string, errorMessage: string)

  /** The three containers; None is a container that was never created (nil). */
  datatype Sets = Sets(
    records: Option<seq<Record>>,
    prints: Option<seq<PrintRecord>>,
    splits: Option<seq<SplitRecord>>)

  const KilledMessage := "Operation has been killed!"

  /** appendErrorMessage on the current record: it becomes an error and the message is added as a line. */
  function AppendErrorMessage(r: Record, msg: string): (r': Record)
    ensures r'.errLevel == 2
    ensures r.buf <= r'.buf && r'.buf[|r.buf|..] == msg + "\n"
    ensures r'.(errLevel := r.errLevel, buf := r.buf) == r
  {
    r.(errLevel := 2, buf := r.buf + msg + "\n")
  }

  /**
   makeNewResult: no record set gives an empty result; otherwise one record
   per stored record, same order, each with SeqNo set to its index and
   every other field unchanged.
   */
  function MakeNewResult(records: Option<seq<Record>>): (r: seq<Record>)
    ensures records.None? ==> r == []
    ensures records.Some? ==> |r| == |records.value|
    ensures records.Some? ==> forall i :: 0 <= i < |r| ==>
      r[i].seqNo == i && r[i].(seqNo := records.value[i].seqNo) == records.value[i]
  {
    match records
    case None => []
    case Some(rs) => seq(|rs|, i requires 0 <= i < |rs| => rs[i].(seqNo := i))
  }

  /** Resequencing an already resequenced result changes nothing. */
  lemma MakeNewResultIdempotent(rs: seq<Record>)
    ensures MakeNewResult(Some(MakeNewResult(Some(rs)))) == MakeNewResult(Some(rs))
  {
  }

  /** Resequencing commutes with appending: earlier records keep their numbers. */
  lemma MakeNewResultAppend(rs: seq<Record>, extra: seq<Record>)
    ensures MakeNewResult(Some(rs + extra))[..|rs|] == MakeNewResult(Some(rs))
  {
  }

  // ---------------------------------------------------------------------------
  // Affected-row default.

  /** The number of entries in the container the mode makes active; an absent container counts 0. */
  function ActiveCount(printMode: bool, splitMode: bool, sets: Sets): nat {
    if printMode then (if sets.prints.Some? then |sets.prints.value| else 0)
    else if splitMode then (if sets.splits.Some? then |sets.splits.value| else 0)
    else if sets.records.Some? then |sets.records.value| else 0
  }

  /**
   The deferred default as the source writes it. None stands for the nil
   dereference: in Print or Split mode the container is read without the nil
   check the record-set branch has.
   */
  function AffectedRowsAsWritten(affected: nat, printMode: bool, splitMode: bool, sets: Sets): (r: Option<nat>)
    ensures r.None? <==> (affected == 0 &&
      ((printMode && sets.prints.None?) || (!printMode && splitMode && sets.splits.None?)))
    ensures r.Some? ==> r.value == (if affected != 0 then affected else ActiveCount(printMode, splitMode, sets))
  {
    if affected != 0 then Some(affected)
    else if printMode then (if sets.prints.None? then None else Some(|sets.prints.value|))
    else if splitMode then (if sets.splits.None? then None else Some(|sets.splits.value|))
    else Some(if sets.records.None? then 0 else |sets.records.value|)
  }

  /**
   The deferred default with every container nil-checked: a count a handler
   set is kept; otherwise the count is the size of the active container.
   */
  function AffectedRows(affected: nat, printMode: bool, splitMode: bool, sets: Sets): (r: nat)
    ensures affected != 0 ==> r == affected
    ensures affected == 0 ==> r == ActiveCount(printMode, splitMode, sets)
  {
    if affected != 0 then affected else ActiveCount(printMode, splitMode, sets)
  }

  /** Wherever the source's default does not dereference nil, the corrected default agrees with it. */
  lemma AffectedRowsAgrees(affected: nat, printMode: bool, splitMode: bool, sets: Sets)
    requires AffectedRowsAsWritten(affected, printMode, splitMode, sets).Some?
    ensures AffectedRowsAsWritten(affected, printMode, splitMode, sets).value
         == AffectedRows(affected, printMode, splitMode, sets)
  {
  }
}

=== FILE: session.dfy ===
/**
 The session and its four entry points. A session keeps the options it was
 given and the affected-row count of its last run. The options are kept as
 the last option check left them, so a mode flag set by one entry point is
 still set for the next one.
 */
module Session {

  import opened Common
  import opened Records
  import opened Options
  import opened Pipeline
  import opened Text
  import opened Splitter

  datatype Session = Session(opt: Option<SourceOptions>, affectedRows: nat)

  /** What an entry point hands back: the session afterwards, the rows (None is nil) and the error. */
  datatype Reply<T> = Reply(session: Session, rows: Option<seq<T>>, err: Option<Error>)

  /** LoadOptions installs a copy of the options and never fails. */
  function LoadOptions(s: Session, o: SourceOptions): (r: Session)
    ensures r.opt == Some(o) && r.affectedRows == s.affectedRows
  {
    s.(opt := Some(o))
  }

  /** The session after a run: the checked options and the run's affected rows. */
  function After(run: RunResult): Session {
    Session(Some(run.opt), RunAffected(run))
  }

  /** The options an Audit run starts from. */
  function AuditOptions(o: SourceOptions): SourceOptions {
    o.(check := true)
  }

  /**
   Audit: without a data source it fails at once and leaves the session as
   it was. Otherwise it runs with Check requested, returns the records
   renumbered from 0 together with the run's error, and an option check
   that fails returns no records.
   */
  function Audit(s: Session, script: string, env: Env): (r: Reply<Record>)
    ensures r.err == Some(NoSource) <==> s.opt.None?
    ensures s.opt.None? ==> r == Reply(s, None, Some(NoSource))
    ensures s.opt.Some? ==> r.rows.Some? && forall i :: 0 <= i < |r.rows.value| ==> r.rows.value[i].seqNo == i
    ensures s.opt.Some? ==> (r.session.opt.Some?
      && r.session.opt.value.printTree == s.opt.value.printTree
      && r.session.opt.value.split == s.opt.value.split
      && (r.session.opt.value.check <==> !s.opt.value.printTree && !s.opt.value.split))
    ensures s.opt.Some? && Validate(s.opt.value).Some? ==> r.rows == Some([]) && r.err == Validate(s.opt.value)
    ensures s.opt.Some? ==>
      var run := AuditRun(AuditOptions(s.opt.value), script, env);
      r.err == run.err && r.rows == Some(MakeNewResult(run.sets.records)) && r.session == After(run)
  {
    match s.opt
    case None => Reply(s, None, Some(NoSource))
    case Some(o) =>
      var run := AuditRun(AuditOptions(o), script, env);
      Reply(After(run), Some(MakeNewResult(run.sets.records)), run.err)
  }

  /** The options a RunExecute run starts from. */
  function ExecuteOptions(o: SourceOptions): SourceOptions {
    o.(check := false, execute := true)
  }

  /**
   RunExecute: the same guard; it runs with Execute requested and then
   commits the records through `env.commit` unless `env.hasErrorBefore`
   finds an earlier error. The error returned is the run's error either way.
   */
  function RunExecute(s: Session, script: string, env: Env): (r: Reply<Record>)
    ensures r.err == Some(NoSource) <==> s.opt.None?
    ensures s.opt.None? ==> r == Reply(s, None, Some(NoSource))
    ensures s.opt.Some? ==> r.rows.Some? && forall i :: 0 <= i < |r.rows.value| ==> r.rows.value[i].seqNo == i
    ensures s.opt.Some? ==> (r.session.opt.Some?
      && (r.session.opt.value.execute <==> !s.opt.value.printTree && !s.opt.value.split)
      && !r.session.opt.value.check)
    ensures s.opt.Some? ==>
      var run := AuditRun(ExecuteOptions(s.opt.value), script, env);
      && r.err == run.err
      && (run.sets.records.Some? && !env.hasErrorBefore(run.sets.records.value) ==>
            r.rows == Some(MakeNewResult(Some(env.commit(run.sets.records.value)))))
      && (run.sets.records.Some? && env.hasErrorBefore(run.sets.records.value) ==>
            r.rows == Some(MakeNewResult(run.sets.records)))
      && r.session == After(run)
  {
    match s.opt
    case None => Reply(s, None, Some(NoSource))
    case Some(o) =>
      var run := AuditRun(ExecuteOptions(o), script, env);
      var rows := match run.sets.records
        case None => MakeNewResult(None)
        case Some(rs) => if env.hasErrorBefore(rs) then MakeNewResult(Some(rs)) else MakeNewResult(Some(env.commit(rs)));
      Reply(After(run), Some(rows), run.err)
  }

  /**
   Print: the same guard; it runs with Print requested and returns the print
   entries, or none when no print container was created. Whatever the run's
   error, Print reports none.
   */
  function Print(s: Session, script: string, env: Env): (r: Reply<PrintRecord>)
    ensures r.err == Some(NoSource) <==> s.opt.None?
    ensures s.opt.None? ==> r == Reply(s, None, Some(NoSource))
    ensures s.opt.Some? ==> r.err.None? && r.rows.Some?
    ensures s.opt.Some? ==> (r.session.opt.Some? && r.session.opt.value.printTree
      && !r.session.opt.value.check && !r.session.opt.value.execute && !r.session.opt.value.backup)
    ensures s.opt.Some? && Validate(s.opt.value).Some? ==> r.rows == Some([])
    ensures s.opt.Some? ==>
      var run := AuditRun(s.opt.value.(printTree := true), script, env);
      && (run.sets.prints.Some? ==> r.rows == run.sets.prints)
      && (run.sets.prints.None? ==> r.rows == Some([]))
      && r.session == After(run)
  {
    match s.opt
    case None => Reply(s, None, Some(NoSource))
    case Some(o) =>
      var run := AuditRun(o.(printTree := true), script, env);
      Reply(After(run), Some(if run.sets.prints.None? then [] else run.sets.prints.value), None)
  }

  /**
   Split: the same guard; it runs with Split requested, flushes the pending
   batch into the split container unless the run already flushed it, and
   returns the split entries, or none when no split container was created.
   Whatever the run's error, Split reports none.
   */
  function Split(s: Session, script: string, env: Env): (r: Reply<SplitRecord>)
    ensures r.err == Some(NoSource) <==> s.opt.None?
    ensures s.opt.None? ==> r == Reply(s, None, Some(NoSource))
    ensures s.opt.Some? ==> r.err.None? && r.rows.Some?
    ensures s.opt.Some? ==> r.session.opt.Some? && r.session.opt.value.split && !r.session.opt.value.check
    ensures s.opt.Some? && s.opt.value.printTree ==> r.rows == Some([])
    ensures s.opt.Some? && !s.opt.value.printTree ==>
      var run := AuditRun(s.opt.value.(split := true), script, env);
      && (run.sets.splits.Some? && !run.flushed ==> r.rows == Some(run.sets.splits.value + env.pendingSplit(run.dispatched)))
      && (run.sets.splits.Some? && run.flushed ==> r.rows == Some(run.sets.splits.value))
    ensures s.opt.Some? ==> r.session == After(AuditRun(s.opt.value.(split := true), script, env))
  {
    match s.opt
    case None => Reply(s, None, Some(NoSource))
    case Some(o) =>
      var run := AuditRun(o.(split := true), script, env);
      var rows := match run.sets.splits
        case None => []
        case Some(ss) => if run.flushed then ss else ss + env.pendingSplit(run.dispatched);
      Reply(After(run), Some(rows), None)
  }

  // ---------------------------------------------------------------------------
  // Properties across calls.

  /** Once options are loaded, no entry point reports a missing data source. */
  lemma LoadedNeverNoSource(s: Session, o: SourceOptions, script: string, env: Env)
    ensures var l := LoadOptions(s, o);
      && Audit(l, script, env).err != Some(NoSource)
      && RunExecute(l, script, env).err != Some(NoSource)
      && Print(l, script, env).err == None
      && Split(l, script, env).err == None
  {
  }

  /**
   The Print flag sticks: an Audit after a Print still routes every node to
   the print handler, so it returns no records at all.
   */
  lemma AuditAfterPrintIsEmpty(s: Session, script1: string, script2: string, env: Env)
    requires s.opt.Some?
    ensures Audit(Print(s, script1, env).session, script2, env).rows == Some([])
  {
  }

  /** The Print flag sticks: a RunExecute after a Print runs with Execute off. */
  lemma ExecuteAfterPrintDoesNotExecute(s: Session, script1: string, script2: string, env: Env)
    requires s.opt.Some?
    ensures var r := RunExecute(Print(s, script1, env).session, script2, env);
      r.session.opt.Some? && !r.session.opt.value.execute
  {
  }

  /**
   The middleware tag is rewritten on every run, so two Audits in a row with
   a tag and sound connection settings wrap it twice.
   */
  lemma RepeatedAuditRewrapsTag(s: Session, script1: string, script2: string, env: Env)
    requires s.opt.Some? && s.opt.value.middlewareExtend != ""
    requires Validate(s.opt.value).None?
    requires forall o :: env.provision(o).None?
    ensures var s1 := Audit(s, script1, env).session;
      var s2 := Audit(s1, script2, env).session;
      && s1.opt.Some? && s2.opt.Some?
      && s1.opt.value.middlewareExtend == MiddlewareTag(s.opt.value.middlewareExtend)
      && s2.opt.value.middlewareExtend == MiddlewareTag(MiddlewareTag(s.opt.value.middlewareExtend))
      && s2.opt.value.middlewareExtend != s1.opt.value.middlewareExtend
  {
  }

  /**
   With no Print or Split flag and no handler setting a count, Audit reports
   as many affected rows as it returns records.
   */
  lemma AuditAffectedCountsRecords(s: Session, script: string, env: Env)
    requires s.opt.Some? && !s.opt.value.printTree && !s.opt.value.split
    requires AuditRun(AuditOptions(s.opt.value), script, env).handlerRows == 0
    ensures var r := Audit(s, script, env);
      r.rows.Some? && r.session.affectedRows == |r.rows.value|
  {
  }

  /**
   A Split run whose first chunk fails to parse flushes the pending batch
   once, ahead of the failure entry, and the closing flush adds nothing more.
   */
  lemma SplitParseFailureFlushesOnce(s: Session, script: string, env: Env)
    requires s.opt.Some? && !s.opt.value.printTree
    requires CheckOptions(s.opt.value.(split := true), env.provision).err.None?
    requires var cs := Chunks(SplitLines(script)); |cs| > 0 && ParseChunk(env, ChunkText(cs[0])).ParseError?
    ensures var c := ChunkText(Chunks(SplitLines(script))[0]);
      Split(s, script, env).rows == Some(env.pendingSplit(0) + [SplitRecord(TrimSpace(c), ParseChunk(env, c).msg)])
  {
    SplitRunParseFailure(s.opt.value.(split := true), script, env);
  }

  /**
   The affected-row default runs when the run returns, before Split's closing
   flush: with no handler-set count, a Split run that did not flush reports
   only the run's own split entries, and the closing batch is not counted.
   */
  lemma SplitAffectedExcludesClosingFlush(s: Session, script: string, env: Env)
    requires s.opt.Some? && !s.opt.value.printTree
    requires var run := AuditRun(s.opt.value.(split := true), script, env);
      run.handlerRows == 0 && run.sets.splits.Some? && !run.flushed
    ensures var run := AuditRun(s.opt.value.(split := true), script, env);
      var r := Split(s, script, env);
      && r.session.affectedRows == |run.sets.splits.value|
      && |r.rows.value| == r.session.affectedRows + |env.pendingSplit(run.dispatched)|
  {
    AffectedDefaultsToEntries(s.opt.value.(split := true), script, env);
  }

  /** An Audit whose options lack only the host fails with exactly that fragment and no records. */
  lemma AuditWithoutHost(s: Session, script: string, env: Env)
    requires s.opt.Some? && s.opt.value.host == "" && s.opt.value.port != 0 && s.opt.value.user != ""
    ensures Audit(s, script, env).err == Some(InvalidSource(HostEmpty))
    ensures Audit(s, script, env).rows == Some([])
  {
  }
}

=== FILE: splitter.dfy ===
/**
 The line-based statement chunker of the audit loop. The script is split on
 newlines; a parity flag, "even" at the start, flips on every line holding an
 odd number of single quotes; lines are buffered, and the buffer is flushed as
 one chunk when a line ends in ";" or ";\r" while the parity (already updated
 for that line) is even, or when the line is the last one. A flushed chunk is
 joined with newlines and its trailing semicolons are trimmed. This is a
 heuristic, not a tokenizer: escaped quotes and comments are not special.
 */
module Splitter {

  import opened Text

  predicate OddQuotes(line: string) {
    multiset(line)['\''] % 2 == 1
  }

  /** The terminator test of the loop: the line ends in ";" or in ";\r". */
  predicate Terminated(line: string) {
    HasSuffix(line, ";") || HasSuffix(line, ";\r")
  }

  /** A script line together with the two facts the loop reads from it. */
  datatype Line = Line(text: string, oddQuotes: bool, terminated: bool)

  function Classify(lines: seq<string>): seq<Line>
  {
    seq(|lines|, i requires 0 <= i < |lines| => Line(lines[i], OddQuotes(lines[i]), Terminated(lines[i])))
  }

  function Texts(ls: seq<Line>): seq<string>
  {
    seq(|ls|, i requires 0 <= i < |ls| => ls[i].text)
  }

  /** The parity flag after reading `line`. */
  function Flip(even: bool, line: Line): bool {
    if line.oddQuotes then !even else even
  }

  /** The flush test of the loop, with `e` the parity already updated for `rest[0]`. */
  predicate Flushes(e: bool, rest: seq<Line>)
    requires |rest| > 0
  {
    (rest[0].terminated && e) || |rest| == 1
  }

  /**
   The loop as a recursive function: `buf` holds the lines buffered since the
   last flush, `even` is the parity flag before `rest[0]` is read.
   */
  function Group(buf: seq<string>, even: bool, rest: seq<Line>): seq<seq<string>>
    decreases |rest|
  {
    if |rest| == 0 then []
    else
      var e := Flip(even, rest[0]);
      if Flushes(e, rest) then [buf + [rest[0].text]] + Group([], e, rest[1..])
      else Group(buf + [rest[0].text], e, rest[1..])
  }

  /** The chunks of a script's lines, before joining and trimming. */
  function Chunks(lines: seq<string>): seq<seq<string>> {
    Group([], true, Classify(lines))
  }

  /** The text handed to the parser for one chunk: joined with newlines, trailing ';' trimmed. */
  function ChunkText(chunk: seq<string>): string {
    TrimRightChar(Join(chunk, "\n"), ';')
  }

  function Flatten(chunks: seq<seq<string>>): seq<string> {
    if |chunks| == 0 then [] else chunks[0] + Flatten(chunks[1..])
  }

  // ---------------------------------------------------------------------------
  // Partition: every line lands in exactly one chunk, in script order.

  lemma {:induction false} FlattenConcat(a: seq<seq<string>>, b: seq<seq<string>>)
    ensures Flatten(a + b) == Flatten(a) + Flatten(b)
    decreases |a|
  {
    if |a| == 0 {
      assert a + b == b;
    } else {
      assert (a + b)[1..] == a[1..] + b;
      FlattenConcat(a[1..], b);
    }
  }

  lemma {:induction false} GroupPartition(buf: seq<string>, even: bool, rest: seq<Line>)
    requires |rest| > 0
    ensures Flatten(Group(buf, even, rest)) == buf + Texts(rest)
    decreases |rest|
  {
    var e := Flip(even, rest[0]);
    var g := Group(buf, even, rest);
    assert Texts(rest) == [rest[0].text] + Texts(rest[1..]);
    if Flushes(e, rest) {
      var tail := Group([], e, rest[1..]);
      assert g == [buf + [rest[0].text]] + tail;
      assert g[1..] == tail;
      assert Flatten(g) == buf + [rest[0].text] + Flatten(tail);
      if |rest| > 1 {
        GroupPartition([], e, rest[1..]);
      } else {
        assert tail == [];
      }
    } else {
      assert g == Group(buf + [rest[0].text], e, rest[1..]);
      GroupPartition(buf + [rest[0].text], e, rest[1..]);
    }
  }

  /** Concatenating the chunks gives back the lines, so no line is dropped, duplicated or moved. */
  lemma ChunksPartition(lines: seq<string>)
    ensures Flatten(Chunks(lines)) == lines
  {
    if |lines| > 0 {
      GroupPartition([], true, Classify(lines));
      assert Texts(Classify(lines)) == lines;
    }
  }

  lemma {:induction false} GroupNonEmpty(buf: seq<string>, even: bool, rest: seq<Line>)
    ensures forall k :: 0 <= k < |Group(buf, even, rest)| ==> |Group(buf, even, rest)[k]| > 0
    decreases |rest|
  {
    if |rest| > 0 {
      var e := Flip(even, rest[0]);
      if Flushes(e, rest) {
        GroupNonEmpty([], e, rest[1..]);
      } else {
        GroupNonEmpty(buf + [rest[0].text], e, rest[1..]);
      }
    }
  }

  /** Every chunk holds at least one line, and a script of n >= 1 lines has at least one chunk. */
  lemma ChunksNonEmpty(lines: seq<string>)
    ensures forall k :: 0 <= k < |Chunks(lines)| ==> |Chunks(lines)[k]| > 0
    ensures |lines| > 0 ==> |Chunks(lines)| > 0
  {
    GroupNonEmpty([], true, Classify(lines));
    if |lines| > 0 {
      ChunksPartition(lines);
    }
  }

  // ---------------------------------------------------------------------------
  // Boundaries: a chunk ends exactly at a terminated line with even parity
  // counted from the start of the script, or at the last line.

  /** Number of lines holding an odd number of single quotes. */
  function OddCount(lines: seq<string>): nat {
    if |lines| == 0 then 0 else (if OddQuotes(lines[0]) then 1 else 0) + OddCount(lines[1..])
  }

  /** Whether line `i` ends a chunk, stated on the whole script rather than on the loop state. */
  predicate EndsChunk(lines: seq<string>, i: nat)
    requires i < |lines|
  {
    i == |lines| - 1 || (Terminated(lines[i]) && OddCount(lines[..i + 1]) % 2 == 0)
  }

  /** For each line of a chunk: is it the chunk's last line? */
  function ChunkMarks(chunk: seq<string>): seq<bool> {
    if |chunk| == 0 then [] else Falses(|chunk| - 1) + [true]
  }

  /** The end-of-chunk marks of a chunk sequence, one per line. */
  function EndMarks(chunks: seq<seq<string>>): seq<bool> {
    if |chunks| == 0 then [] else ChunkMarks(chunks[0]) + EndMarks(chunks[1..])
  }

  /** The flush decision of the loop for each remaining line, given the parity before them. */
  function Marks(even: bool, rest: seq<Line>): (m: seq<bool>)
    ensures |m| == |rest|
    decreases |rest|
  {
    if |rest| == 0 then []
    else
      var e := Flip(even, rest[0]);
      [Flushes(e, rest)] + Marks(e, rest[1..])
  }

  function Falses(n: nat): seq<bool> {
    if n == 0 then [] else Falses(n - 1) + [false]
  }

  lemma EndMarksCons(c: seq<string>, cs: seq<seq<string>>)
    ensures EndMarks([c] + cs) == ChunkMarks(c) + EndMarks(cs)
  {
  }

  lemma {:induction false} GroupMarks(buf: seq<string>, even: bool, rest: seq<Line>)
    requires |rest| > 0
    ensures EndMarks(Group(buf, even, rest)) == Falses(|buf|) + Marks(even, rest)
    decreases |rest|
  {
    var e := Flip(even, rest[0]);
    var m := Marks(e, rest[1..]);
    if Flushes(e, rest) {
      var tail := Group([], e, rest[1..]);
      var c := buf + [rest[0].text];
      calc {
        EndMarks(Group(buf, even, rest));
        { assert Group(buf, even, rest) == [c] + tail; }
        EndMarks([c] + tail);
        { EndMarksCons(c, tail); }
        ChunkMarks(c) + EndMarks(tail);
        { if |rest| > 1 { GroupMarks([], e, rest[1..]); } }
        Falses(|buf|) + [true] + m;
        { assert Marks(even, rest) == [true] + m; }
        Falses(|buf|) + Marks(even, rest);
      }
    } else {
      calc {
        EndMarks(Group(buf, even, rest));
        { assert Group(buf, even, rest) == Group(buf + [rest[0].text], e, rest[1..]);
          GroupMarks(buf + [rest[0].text], e, rest[1..]); }
        Falses(|buf| + 1) + m;
        { assert Marks(even, rest) == [false] + m; }
        Falses(|buf|) + Marks(even, rest);
      }
    }
  }

  /** Number of classified lines flagged with an odd quote count. */
  function OddLines(ls: seq<Line>): nat {
    if |ls| == 0 then 0 else (if ls[0].oddQuotes then 1 else 0) + OddLines(ls[1..])
  }

  lemma {:induction false} MarksAt(even: bool, rest: seq<Line>, j: nat)
    requires j < |rest|
    ensures Marks(even, rest)[j] ==
      (j == |rest| - 1 || (rest[j].terminated && ((OddLines(rest[..j + 1]) % 2 == 0) == even)))
    decreases |rest|
  {
    var e := Flip(even, rest[0]);
    if j == 0 {
      assert rest[..1][1..] == [];
    } else {
      MarksAt(e, rest[1..], j - 1);
      assert rest[..j + 1][1..] == rest[1..][..j];
    }
  }

  lemma {:induction false} OddLinesAgree(ls: seq<Line>, lines: seq<string>)
    requires |ls| == |lines|
    requires forall i :: 0 <= i < |ls| ==> ls[i].oddQuotes == OddQuotes(lines[i])
    ensures OddLines(ls) == OddCount(lines)
    decreases |ls|
  {
    if |ls| > 0 {
      OddLinesAgree(ls[1..], lines[1..]);
    }
  }

  lemma BoundaryAt(lines: seq<string>, i: nat)
    requires i < |lines|
    ensures Marks(true, Classify(lines))[i] == EndsChunk(lines, i)
  {
    var ls := Classify(lines);
    MarksAt(true, ls, i);
    OddLinesAgree(ls[..i + 1], lines[..i + 1]);
    assert ls[i].terminated == Terminated(lines[i]);
  }

  lemma ChunkMarksAgree(lines: seq<string>)
    ensures EndMarks(Chunks(lines)) == Marks(true, Classify(lines))
  {
    if |lines| > 0 {
      GroupMarks([], true, Classify(lines));
    } else {
      assert Chunks(lines) == [];
    }
  }

  /**
   The chunks end exactly at the lines where EndsChunk holds: parity starts
   even, flips on lines with an odd quote count, is updated before the flush
   test, and the last line always ends a chunk.
   */
  lemma ChunkBoundaries(lines: seq<string>)
    ensures |EndMarks(Chunks(lines))| == |lines|
    ensures forall i :: 0 <= i < |lines| ==> EndMarks(Chunks(lines))[i] == EndsChunk(lines, i)
  {
    ChunkMarksAgree(lines);
    var m := Marks(true, Classify(lines));
    assert |m| == |lines|;
    forall i | 0 <= i < |lines|
      ensures m[i] == EndsChunk(lines, i)
    {
      BoundaryAt(lines, i);
    }
  }

  /** The last line of a non-empty script always ends the last chunk. */
  lemma LastLineEndsChunk(lines: seq<string>)
    requires |lines| > 0
    ensures |Chunks(lines)| > 0
    ensures var cs := Chunks(lines); |cs[|cs| - 1]| > 0 && cs[|cs| - 1][|cs[|cs| - 1]| - 1] == lines[|lines| - 1]
  {
    ChunksNonEmpty(lines);
    ChunksPartition(lines);
    var cs := Chunks(lines);
    FlattenConcat(cs[..|cs| - 1], [cs[|cs| - 1]]);
    assert cs == cs[..|cs| - 1] + [cs[|cs| - 1]];
    assert Flatten([cs[|cs| - 1]]) == cs[|cs| - 1];
  }

  lemma {:induction false} GroupOnePerLine(ls: seq<Line>)
    requires forall i :: 0 <= i < |ls| ==> !ls[i].oddQuotes
    requires forall i :: 0 <= i < |ls| - 1 ==> ls[i].terminated
    ensures Group([], true, ls) == seq(|ls|, i requires 0 <= i < |ls| => [ls[i].text])
    decreases |ls|
  {
    if |ls| > 0 {
      GroupOnePerLine(ls[1..]);
      assert Group([], true, ls) == [[] + [ls[0].text]] + Group([], true, ls[1..]);
      assert [] + [ls[0].text] == [ls[0].text];
    }
  }

  /**
   A script whose lines all hold an even number of quotes and all end in a
   terminator (except perhaps the last) gives one chunk per line.
   */
  lemma OneChunkPerLine(lines: seq<string>)
    requires forall i :: 0 <= i < |lines| ==> !OddQuotes(lines[i])
    requires forall i :: 0 <= i < |lines| - 1 ==> Terminated(lines[i])
    ensures Chunks(lines) == seq(|lines|, i requires 0 <= i < |lines| => [lines[i]])
  {
    GroupOnePerLine(Classify(lines));
  }

  /**
   A terminated line that opens a quote does not end its chunk: the chunk runs
   on to the next terminated line that closes the quote, and the line after
   that starts a chunk of its own.
   */
  lemma QuotedTerminatorJoins(l0: string, l1: string, l2: string)
    requires OddQuotes(l0) && Terminated(l0) && OddQuotes(l1) && Terminated(l1)
    ensures Chunks([l0, l1, l2]) == [[l0, l1], [l2]]
  {
    var ls := Classify([l0, l1, l2]);
    assert ls[0] == Line(l0, true, true) && ls[1] == Line(l1, true, true);
    assert Group([], true, ls) == Group([] + [l0], false, ls[1..]);
    assert [] + [l0] == [l0];
    assert ls[1..][0] == ls[1] && ls[1..][1..] == ls[2..];
    assert Group([l0], false, ls[1..]) == [[l0] + [l1]] + Group([], true, ls[2..]);
    assert [l0] + [l1] == [l0, l1];
    assert ls[2..] == [ls[2]] && ls[2].text == l2;
    assert Group([], true, ls[2..]) == [[] + [l2]] + Group([], Flip(true, ls[2]), []);
    assert [] + [l2] == [l2];
  }

  /**
   Trailing semicolons are trimmed from the chunk text, but a line ending in
   ";\r" keeps its terminator, since the trim stops at the carriage return.
   */
  lemma CarriageReturnKeepsSemicolon(line: string)
    requires HasSuffix(line, ";\r")
    ensures Terminated(line)
    ensures ChunkText([line]) == line
  {
  }

  /** A single line ending in one or more ';' loses all of them. */
  lemma SemicolonsTrimmed(line: string, n: nat)
    requires |line| == 0 || line[|line| - 1] != ';'
    ensures ChunkText([line + seq(n, _ => ';')]) == line
    decreases n
  {
    if n > 0 {
      var s := line + seq(n, _ => ';');
      assert s[..|s| - 1] == line + seq(n - 1, _ => ';');
      SemicolonsTrimmed(line, n - 1);
    } else {
      assert line + seq(0, _ => ';') == line;
    }
  }
}

=== FILE: text.dfy ===
/**
 The few Go `strings` operations the session core relies on, over `seq<char>`
 (one char per rune): Split on a separator, Join, HasPrefix/HasSuffix,
 TrimRight with a one-character cutset, Trim with a cutset, TrimSpace, and
 Replace with a count of one.
 */
module Text {

  import opened Common

  predicate HasPrefix(s: string, prefix: string) {
    |prefix| <= |s| && s[..|prefix|] == prefix
  }

  predicate HasSuffix(s: string, suffix: string) {
    |suffix| <= |s| && s[|s| - |suffix|..] == suffix
  }

  /** strings.Join: the parts with `sep` between consecutive ones. */
  function Join(parts: seq<string>, sep: string): string
  {
    if |parts| == 0 then ""
    else if |parts| == 1 then parts[0]
    else parts[0] + sep + Join(parts[1..], sep)
  }

  /** strings.Split(s, "\n"): the pieces between newlines; never empty, "" gives [""]. */
  function SplitLines(s: string): (lines: seq<string>)
    ensures |lines| >= 1
    ensures forall i :: 0 <= i < |lines| ==> '\n' !in lines[i]
    ensures Join(lines, "\n") == s
  {
    if |s| == 0 then [""]
    else
      var rest := SplitLines(s[1..]);
      if s[0] == '\n' then [""] + rest
      else
        var lines := [[s[0]] + rest[0]] + rest[1..];
        assert Join(lines, "\n") == s by {
          if |rest| > 1 {
            assert Join(rest, "\n") == rest[0] + "\n" + Join(rest[1..], "\n");
            assert lines[1..] == rest[1..];
          }
        }
        lines
  }

  /** A line without newlines followed by a newline and more text splits off as one piece. */
  lemma {:induction false} SplitLinesCons(a: string, b: string)
    requires '\n' !in a
    ensures SplitLines(a + "\n" + b) == [a] + SplitLines(b)
    decreases |a|
  {
    if |a| == 0 {
      assert a + "\n" + b == "\n" + b;
      assert ("\n" + b)[1..] == b;
    } else {
      assert (a + "\n" + b)[1..] == a[1..] + "\n" + b;
      assert a == [a[0]] + a[1..];
      SplitLinesCons(a[1..], b);
    }
  }

  /** Text without a newline is a single line. */
  lemma SplitLinesSingle(a: string)
    requires '\n' !in a
    ensures SplitLines(a) == [a]
    decreases |a|
  {
  }

  /** Splitting the newline-join of newline-free lines gives those lines back. */
  lemma {:induction false} SplitJoinRoundTrip(lines: seq<string>)
    requires |lines| >= 1
    requires forall i :: 0 <= i < |lines| ==> '\n' !in lines[i]
    ensures SplitLines(Join(lines, "\n")) == lines
    decreases |lines|
  {
    if |lines| == 1 {
      SplitLinesSingle(lines[0]);
    } else {
      SplitJoinRoundTrip(lines[1..]);
      SplitLinesCons(lines[0], Join(lines[1..], "\n"));
      assert lines == [lines[0]] + lines[1..];
    }
  }

  /** strings.TrimRight(s, cutset) for a one-character cutset: drop every trailing `c`. */
  function TrimRightChar(s: string, c: char): (r: string)
    ensures r <= s
    ensures |r| == 0 || r[|r| - 1] != c
    ensures forall i :: |r| <= i < |s| ==> s[i] == c
  {
    if |s| > 0 && s[|s| - 1] == c then TrimRightChar(s[..|s| - 1], c) else s
  }

  /** strings.TrimLeft with a cutset given as a set of characters. */
  function TrimLeftSet(s: string, cut: set<char>): (r: string)
    ensures |r| <= |s| && r == s[|s| - |r|..]
    ensures |r| == 0 || r[0] !in cut
    ensures forall i :: 0 <= i < |s| - |r| ==> s[i] in cut
  {
    if |s| > 0 && s[0] in cut then TrimLeftSet(s[1..], cut) else s
  }

  /** strings.TrimRight with a cutset given as a set of characters. */
  function TrimRightSet(s: string, cut: set<char>): (r: string)
    ensures r <= s
    ensures |r| == 0 || r[|r| - 1] !in cut
    ensures forall i :: |r| <= i < |s| ==> s[i] in cut
  {
    if |s| > 0 && s[|s| - 1] in cut then TrimRightSet(s[..|s| - 1], cut) else s
  }

  /**
   strings.Trim: drop the leading and trailing characters that are in `cut`.
   The result is a prefix of the left-trimmed text (the suffix of `s` after
   its leading run of `cut` characters) after which only `cut` characters
   follow; its ends are not in `cut`, and it is empty exactly when every
   character is in `cut`.
   */
  function Trim(s: string, cut: set<char>): (r: string)
    ensures |r| <= |s|
    ensures r <= TrimLeftSet(s, cut)
    ensures forall k :: |r| <= k < |TrimLeftSet(s, cut)| ==> TrimLeftSet(s, cut)[k] in cut
    ensures |r| == 0 || (r[0] !in cut && r[|r| - 1] !in cut)
    ensures r == "" <==> forall i :: 0 <= i < |s| ==> s[i] in cut
  {
    var left := TrimLeftSet(s, cut);
    var r := TrimRightSet(left, cut);
    TrimEmptyIffAllCut(s, cut, left, r);
    r
  }

  /** Trimming both ends leaves nothing exactly when every character is in `cut`. */
  lemma TrimEmptyIffAllCut(s: string, cut: set<char>, left: string, r: string)
    requires left == TrimLeftSet(s, cut) && r == TrimRightSet(left, cut)
    ensures r == "" <==> forall i :: 0 <= i < |s| ==> s[i] in cut
    ensures |r| == 0 || r[0] !in cut
  {
  }

  /** Every character of `t` is in `cut`. */
  predicate AllIn(t: string, cut: set<char>) {
    forall k :: 0 <= k < |t| ==> t[k] in cut
  }

  /** The left trim stops at the first character outside `cut`. */
  lemma {:induction false} TrimLeftStopsAt(s: string, cut: set<char>, i: nat)
    requires i < |s| && s[i] !in cut && AllIn(s[..i], cut)
    ensures TrimLeftSet(s, cut) == s[i..]
    decreases i
  {
    if i > 0 {
      assert s[..i][0] == s[0];
      assert s[1..][..i - 1] == s[..i][1..];
      assert s[1..][i - 1] == s[i] && s[1..][i - 1..] == s[i..];
      TrimLeftStopsAt(s[1..], cut, i - 1);
    }
  }

  /** The right trim stops after the last character outside `cut`. */
  lemma {:induction false} TrimRightStopsAt(t: string, cut: set<char>, n: nat)
    requires 0 < n <= |t| && t[n - 1] !in cut && AllIn(t[n..], cut)
    ensures TrimRightSet(t, cut) == t[..n]
    decreases |t| - n
  {
    if n < |t| {
      var u := t[..|t| - 1];
      assert t[n..][|t| - 1 - n] == t[|t| - 1];
      assert u[n..] == t[n..][..|t| - 1 - n];
      assert u[n - 1] == t[n - 1] && u[..n] == t[..n];
      TrimRightStopsAt(u, cut, n);
    }
  }

  /** Both trims stop at the ends of a slice of that shape. */
  lemma TrimsStopAt(s: string, cut: set<char>, i: nat, j: nat)
    requires i < j <= |s|
    requires s[i] !in cut && s[j - 1] !in cut
    requires AllIn(s[..i], cut) && AllIn(s[j..], cut)
    ensures TrimRightSet(TrimLeftSet(s, cut), cut) == s[i..j]
  {
    assert TrimRightSet(s[i..], cut) == s[i..j] by {
      var left := s[i..];
      assert left[j - i - 1] == s[j - 1];
      assert AllIn(left[j - i..], cut) by {
        assert left[j - i..] == s[j..];
      }
      TrimRightStopsAt(left, cut, j - i);
      assert left[..j - i] == s[i..j];
    }
    TrimLeftStopsAt(s, cut, i);
  }

  /**
   Trim is the only slice of that shape: a non-empty slice of `s` whose ends
   are not in `cut`, and outside which every character is in `cut`, is the
   trimmed text.
   */
  lemma TrimUnique(s: string, cut: set<char>, i: nat, j: nat)
    requires i < j <= |s|
    requires s[i] !in cut && s[j - 1] !in cut
    requires AllIn(s[..i], cut) && AllIn(s[j..], cut)
    ensures Trim(s, cut) == s[i..j]
  {
    TrimsStopAt(s, cut, i, j);
  }

  /** The characters Go's unicode.IsSpace accepts. */
  const Spaces: set<char> := {
    '\t', '\n', '\U{000B}', '\U{000C}', '\r', ' ', '\U{0085}', '\U{00A0}', '\U{1680}',
    '\U{2000}', '\U{2001}', '\U{2002}', '\U{2003}', '\U{2004}', '\U{2005}',
    '\U{2006}', '\U{2007}', '\U{2008}', '\U{2009}', '\U{200A}',
    '\U{2028}', '\U{2029}', '\U{202F}', '\U{205F}', '\U{3000}'
  }

  /** strings.TrimSpace. */
  function TrimSpace(s: string): string
  {
    Trim(s, Spaces)
  }

  /** The pattern occurs in `s` starting at index `i`. */
  predicate OccursAt(s: string, pat: string, i: nat) {
    i + |pat| <= |s| && s[i..i + |pat|] == pat
  }

  /** Index of the first occurrence of `pat` at or after `from`, if any. */
  function FindFrom(s: string, pat: string, from: nat): (r: Option<nat>)
    requires from <= |s|
    ensures r.Some? ==> from <= r.value && OccursAt(s, pat, r.value)
    ensures r.Some? ==> forall j :: from <= j < r.value ==> !OccursAt(s, pat, j)
    ensures r.None? ==> forall j :: from <= j <= |s| ==> !OccursAt(s, pat, j)
    decreases |s| - from
  {
    if OccursAt(s, pat, from) then Some(from)
    else if from == |s| then None
    else FindFrom(s, pat, from + 1)
  }

  /** strings.Replace(s, pat, repl, 1) for a non-empty `pat`: replace the first occurrence only. */
  function ReplaceFirst(s: string, pat: string, repl: string): (r: string)
    requires |pat| > 0
    ensures (forall j :: 0 <= j <= |s| ==> !OccursAt(s, pat, j)) ==> r == s
    ensures forall i: nat :: OccursAt(s, pat, i) && (forall j :: 0 <= j < i ==> !OccursAt(s, pat, j)) ==>
      r == s[..i] + repl + s[i + |pat|..]
  {
    match FindFrom(s, pat, 0)
    case None => s
    case Some(i) => s[..i] + repl + s[i + |pat|..]
  }

}
